=== FILE: README.md ===
# Physics Millionaire: the game session, the prize ladder and the question bank

A Dafny model of the core of a single-player quiz in the style of "Who Wants
to Be a Millionaire?". A session is a list of multiple-choice questions played
in order. An answer is locked in and shown right or wrong at once; after a
delay the game moves to the next question or ends. There is one lifeline,
50:50, which hides two wrong answers. The game-over screen shows a prize
taken from a 15-row prize table, or "€0". A separate service grows a
persisted question bank: it drops candidates whose text the bank already
holds, appends the rest, and evicts the oldest entries beyond a cap.

The model is functional. The React state becomes one immutable record, and
each event becomes a pure function on it (`Game`). The two `setTimeout`
callbacks of the answer handler become events of their own. The state records
which callback is armed and what its closure captured, so only their order
matters. The random loop of the lifeline takes two explicit positions in the
wrong-answer list instead of `Math.random`.

Modules:

- `Types` (types.dfy): questions, game status, answer state, question bank, `Option`.
- `Digits` (digits.dfy): decimal rendering and reading of numbers.
- `Constants` (constants.dfy): `PRIZE_AMOUNTS`, the listed amounts reversed, and `SAFE_LEVELS`.
- `Prize` (prize.dfy): the ladder row of a question, the safe flags, and `getFinalPrize`.
- `Labels` (labels.dfy): the `${index}:${answer}` button label, and how the button decodes it with `split`, `indexOf` and `parseInt`.
- `Bank` (bank.dfy): `addQuestionsToBank` as a function from the bank read and a batch to the bank written, or nothing.
- `Game` (game.dfy): the session state machine, its invariant over every reachable state, and the answer-button states.

The code marks "€1.000" and "€32.000" as safe points (constants.ts:7 and
constants.ts:12), and `SAFE_LEVELS` (constants.ts:20) flags them on the ladder.
What the code does with them is not what those marks suggest; the model
follows the code:

- `getFinalPrize` does not pay the highest safe point passed before the
  failed question. A won game shows the last entry of the reversed table,
  "€100". After a wrong answer
  the loop compares the question index with the safe rows 5 and 10, and the
  larger row overwrites the smaller. Questions 0 to 5 pay "€0", 6 to 10 pay
  "€32.000", and 11 or later pay "€1.000", so losing later can pay less.
  `Prize.FinalPrize` states this table and `Prize.FinalPrizeNotMonotone`
  shows the drop.
- The comment on `SAFE_LEVELS` reads the levels as indices into the reversed
  table, which would name "€64.000" and "€2.000". The code instead counts them
  from the bottom of the ladder, giving the two amounts marked as safe points,
  "€1.000" and "€32.000" (`Constants.SafeLevelsAmounts`).
- There is no suspense phase. Correctness is drawn as soon as an answer is
  chosen, so an answer button is never drawn as "selected"
  (`Game.SelectedNeverDrawn`).
- Adding the same batch twice is guaranteed idempotent when nothing was
  evicted (`Bank.AddTwiceSavesNothing`); with eviction a repeat can be saved
  again (`Bank.EvictionBreaksIdempotence` gives such a batch).
- Candidates that share a text within one batch are all kept
  (`Bank.BatchDuplicatesKept`, `Bank.UniqueNewCount`).
- Only one lifeline, a single session status guard in place of a reentrancy
  flag, and no session sampler, timer, phone-a-friend, question switch or win
  counter exist in the code.

## Model

| member | source | states |
|---|---|---|
| Digits.NatToString | App.tsx:201 | The rendering of a natural number is a non-empty run of decimal digits without a leading zero |
| Digits.NatToStringRoundTrip | App.tsx:201 | Reading back the decimal rendering of a natural number gives the number |
| Constants.PrizeAmountsLayout | constants.ts:2-18 | The table has 15 entries; entry i is the (14-i)-th listed amount, so entry 0 is "€1.000.000" and entry 14 is "€100" |
| Constants.PrizeAmountsDistinct | constants.ts:2-18 | The 15 amounts are pairwise distinct, as their use as ladder list keys needs |
| Constants.SafeLevelsAmounts | constants.ts:20 | SAFE_LEVELS is [4, 9], both valid rows; counted from the bottom they are "€1.000" and "€32.000", while the comment's reading would give "€64.000" and "€2.000" |
| Prize.PrizeLevel | App.tsx:71 | Question q is drawn on a valid ladder row, and that row holds the q-th listed amount |
| Prize.SortAscending | App.tsx:144 | The numeric sort returns an ascending permutation of its input |
| Prize.SafeIndicesValue | App.tsx:144 | The safe levels mapped to rows and sorted are [5, 10] |
| Prize.PrizeWonIndex | App.tsx:143-148 | The loop's result is its start value or one of the safe rows |
| Prize.PrizeWonIndexIsLargestBelow | App.tsx:143-148 | Over ascending rows the loop yields the largest row strictly below the question index, and keeps its start value when there is none |
| Prize.FinalPrize | App.tsx:138-151 | A win shows "€100"; otherwise question index up to 5 shows "€0", 6 to 10 shows "€32.000" (row 5), 11 and up shows "€1.000" (row 10) |
| Prize.FinalPrizeNotMonotone | App.tsx:138-151 | A wrong answer on question 11 pays a lower listed amount than one on question 10, and a win pays the lowest listed amount |
| Prize.SafeRowsAreAwardable | App.tsx:20 | The rows the ladder flags as safe are exactly the rows the final prize can award, namely 5 and 10 |
| Labels.Encode | App.tsx:201 | A label is the decimal form of the position, a ':', and the answer unchanged |
| Labels.ParseInt | App.tsx:53 | `parseInt` of the empty string is NaN; of a non-empty digit run it is the run's decimal value; a negative result needs a '-' in the input |
| Labels.Decode | App.tsx:53-54 | The label is split at its first ':': the number is parsed from the part before it and the text is the part after it; with no ':' both come from the whole label |
| Labels.IndexOf | App.tsx:54 | The position of the first occurrence of a character, -1 exactly when it is absent |
| Labels.PrefixOf | App.tsx:58 | The letter lookup is defined exactly when the decoded index is 0 to 3 |
| Labels.SplitEncode | App.tsx:53-54 | In a label `${i}:${s}` the text before the first ':' is the decimal form of i and the text after it is s |
| Labels.ParseIntNatToString | App.tsx:53 | `parseInt` of the decimal form of a natural number gives that number |
| Labels.DecodeEncode | App.tsx:52-54 | Decoding `${i}:${s}` gives exactly i and s, for every natural i and every s, including an s containing ':' |
| Labels.PrefixOfEncode | App.tsx:52-58 | For positions 0 to 3 the button finds its letter prefix |
| Bank.UniqueNew | services/questionBankService.ts:36-38 | The kept candidates are exactly the batch entries whose text the bank lacks |
| Bank.AddQuestionsToBank | services/questionBankService.ts:32-52 | Nothing is saved exactly when every candidate's text is already in the bank; otherwise the saved bank is the last min(old + new, max) entries of old followed by new |
| Bank.SavedQuestionsAreOldOrNew | services/questionBankService.ts:36-44 | Every saved question is an old one or a candidate whose text the old bank lacked |
| Bank.NoEvictionKeepsEverything | services/questionBankService.ts:44-49 | Below the cap the result is exactly the old bank followed by the new questions |
| Bank.UniqueNewAppend | services/questionBankService.ts:36-38 | Filtering a concatenated batch is filtering each part and concatenating: candidates keep their batch order |
| Bank.UniqueNewSingleton | services/questionBankService.ts:36-38 | A single candidate is kept exactly when the bank lacks its text |
| Bank.UniqueNewCount | services/questionBankService.ts:36-38 | Each question appears among the kept candidates as often as in the batch when the bank lacks its text, and not at all otherwise: duplicates within a batch are all kept |
| Bank.UniqueNewKeepsDistinct | services/questionBankService.ts:36-38 | Filtering a batch with distinct texts keeps them distinct |
| Bank.SavedTextsDistinct | services/questionBankService.ts:36-48 | If the old bank and the batch each have distinct texts, so does the saved bank |
| Bank.SavedHoldsBatchTexts | services/questionBankService.ts:36-49 | Without eviction every candidate's text, new or not, is in the saved bank |
| Bank.AddTwiceSavesNothing | services/questionBankService.ts:36-42 | Without eviction, the same batch given again saves nothing |
| Bank.EvictionBreaksIdempotence | services/questionBankService.ts:44-49 | With a cap of one, a two-question batch given twice is saved both times |
| Bank.BatchDuplicatesKept | services/questionBankService.ts:36-38 | Any two candidates sharing a text the bank lacks are both kept, in order |
| Game.WrongAnswers | App.tsx:114 | The wrong-answer list holds exactly the answers different from the correct one |
| Game.Start | App.tsx:73-74 | The start button shows the loading screen and changes nothing else |
| Game.Loaded | App.tsx:75-81 | A load installs the fetched questions, sets index 0, clears the selection and hidden answers, clears the lifeline flag, and starts play |
| Game.Select | App.tsx:84-88 | An answer is ignored unless a question is being played; when taken, it sets the status and the selection, arms the 3000 ms outcome callback, and changes nothing else |
| Game.Resolve | App.tsx:90-106 | The 3000 ms outcome callback ends the game on a wrong or a last right answer, arms the advance callback on any other right answer, and changes neither index, selection, hidden answers nor lifeline flag |
| Game.Advance | App.tsx:96-101 | The advance callback plays the next question with the selection and hidden answers cleared and the lifeline flag kept |
| Game.FiftyFifty | App.tsx:109-126 | Ignored once used or outside play; otherwise it sets the flag and hides two different answers of the current question, neither of them the correct one |
| Game.AnswerStateOf | App.tsx:128-136 | An answer is drawn hidden exactly when it is hidden, in every status; correct and incorrect are drawn only after an answer is chosen, and then a visible correct answer is drawn correct and a visible chosen wrong answer is drawn incorrect, and only those; before that a visible chosen answer is drawn selected, and every other visible answer default |
| Game.GameOverPrize | App.tsx:179 | The game-over screen shows one of four amounts: "€0", "€100", "€32.000" or "€1.000" |
| Game.Enabled | App.tsx:57 | An answer click happens only on a question screen, on an answer of the current question that is neither hidden nor already chosen, since every other button is disabled; the 50:50 click happens only on a question screen and only until the lifeline is used (App.tsx:9) |
| Game.InitialInv | App.tsx:64-69 | The first render satisfies the invariant |
| Game.StepKeepsInv | App.tsx:73-126 | Every enabled event keeps the invariant: the index is valid while a question is shown, hidden answers are none or two different wrong ones, and an armed callback's captured values are the current ones |
| Game.RunKeepsInv | App.tsx:64-126 | Every state reached by enabled events keeps the invariant; while a question is played or answered its index is in range |
| Game.EmptyLoadBreaksInv | App.tsx:73-82 | A load that delivers no question leads to play with no question on screen |
| Game.ResolveOutcome | App.tsx:90-106 | In terms of the state on screen: wrong answer ends the game, right answer on the last question ends it, any other right answer leads to the next question with the lifeline flag unchanged |
| Game.StepIndex | App.tsx:93-100 | The index changes only by a load, to 0, or by the advance callback, by exactly one after a right answer that was not the last |
| Game.StepFiftyFiftyFlag | App.tsx:76-112 | The lifeline flag is set only by the 50:50 button and cleared only by a load |
| Game.SecondAnswerIgnored | App.tsx:84-88 | A second answer after the first one is taken changes nothing |
| Game.CorrectNeverHidden | App.tsx:128-136 | The correct answer is never hidden, and is drawn correct once an answer is chosen |
| Game.SelectedNeverDrawn | App.tsx:128-136 | While buttons are on screen no answer is drawn as "selected" |
| Game.VisibleAnswers | App.tsx:128-129 | The visible answers are exactly the answers not hidden |
| Game.WrongAnswersOfDistinct | App.tsx:114 | On distinct answers the wrong-answer list is distinct and one shorter when the correct answer is among them |
| Game.VisibleDistinctCount | App.tsx:128-129 | Hiding two different answers of a distinct list leaves one fewer per hidden answer present |
| Game.WellFormedHasChoice | App.tsx:114-124 | A question with four different answers including the correct one has three different wrong answers, so the random loop can finish |
| Game.NoChoiceWhenWrongAnswersAlike | App.tsx:114-124 | When all wrong answers are one string, no pair of positions names two different wrong answers, so the random loop cannot finish |
| Game.FiftyFiftyLeavesTwo | App.tsx:109-126 | On such a question the lifeline leaves exactly two answers visible: the correct one and one wrong one |
| Game.GameOverPrizeAfterResolve | App.tsx:138-151 | The game-over screen after the outcome callback shows "€100" on a win, and the question-index table of the final prize on a loss |

## Left out

- The question fetch (services/geminiService.ts) calls a generative-model library and parses JSON. It becomes the payload of the `QuestionsLoaded` event. The model assumes it delivers at least one question. `Game.EmptyLoadBreaksInv` shows what happens otherwise.
- `getQuestionBank` and `saveQuestionBank` read and write browser storage with JSON and try/catch. `Bank.AddQuestionsToBank` takes the bank read and returns the bank to write; None means nothing is written.
- `MAX_QUESTIONS` is imported from constants.ts but not defined there, so it is a parameter. `QuestionBank` is taken to be a record holding a list of questions.
- Real time, React's update batching and closure staleness are left out. Events are strictly sequential. The timeouts are events whose order alone matters.
- `Math.random` is replaced by two explicit positions in the wrong-answer list. Any pair of positions holding different answers is one possible run of the loop.
- Game.Start: the start handler itself has no guard. The model enables it only on the screens that render the start button, the welcome and game-over screens.
- Game.FiftyFifty and Game.AnswerStateOf: on a question index out of range the source throws. These members require a valid index where they read the current question. The outcome callback's throw is modelled as the callback running without effect.
- Game.FiftyFifty: the source's random loop (App.tsx:118-124) never ends when the wrong-answer list lacks two different entries, for example answers ["x", "x", "x", "c"] with "c" correct; the fetch checks only that there are four answers. The model requires a pair of positions holding different wrong answers, so such a hang is a state with no 50:50 step (`Game.NoChoiceWhenWrongAnswersAlike`).
- Labels.ParseInt: reads digit runs as exact integers. Beyond 2^53 JavaScript numbers lose precision; the decoded indices 0 to 3 are far below that.
- Prize.SortAscending: an insertion sort stands in for the engine's own sort algorithm. On numbers with a numeric comparator, every correct sort gives the same result.
- The timer display (components/Timer.tsx), the spinner, icons, CSS classes and the ladder's current/achieved highlighting are presentation only.
- Features with no code here are not modelled: countdown timer, phone-a-friend, question switch, win counter, difficulty-stratified sampling, developer mode.

=== FILE: bank.dfy ===
/** Growing the persisted question bank (services/questionBankService.ts,
    `addQuestionsToBank`), with the storage read and write taken out: the
    function gets the bank that was read and returns the bank to write, or
    None when nothing is written. */
module Bank {
  import opened Types

  /** Some question of `qs` has exactly this text. */
  predicate HasText(qs: seq<QuizQuestion>, text: string) {
    exists k :: 0 <= k < |qs| && qs[k].question == text
  }

  /** No two questions of `qs` share a text. */
  predicate DistinctTexts(qs: seq<QuizQuestion>) {
    forall i, j :: 0 <= i < j < |qs| ==> qs[i].question != qs[j].question
  }

  function Min(a: int, b: int): int {
    if a <= b then a else b
  }

  /** The candidates whose text the bank does not hold yet, in batch order.
      Candidates sharing a text with each other are all kept. */
  function UniqueNew(existing: seq<QuizQuestion>, batch: seq<QuizQuestion>): (unique: seq<QuizQuestion>)
    ensures |unique| <= |batch|
    ensures forall k :: 0 <= k < |unique| ==> unique[k] in batch && !HasText(existing, unique[k].question)
    ensures forall k :: 0 <= k < |batch| && !HasText(existing, batch[k].question) ==> batch[k] in unique
  {
    if |batch| == 0 then []
    else
      var rest := UniqueNew(existing, batch[1..]);
      assert forall k :: 1 <= k < |batch| ==> batch[k] == batch[1..][k - 1];
      (if HasText(existing, batch[0].question) then [] else [batch[0]]) + rest
  }

  /** The filter keeps batch order: filtering two batches one after the
      other gives the two filtered batches one after the other. */
  lemma {:induction false} UniqueNewAppend(existing: seq<QuizQuestion>, first: seq<QuizQuestion>, second: seq<QuizQuestion>)
    ensures UniqueNew(existing, first + second) == UniqueNew(existing, first) + UniqueNew(existing, second)
  {
    if |first| > 0 {
      assert (first + second)[1..] == first[1..] + second;
      UniqueNewAppend(existing, first[1..], second);
    } else {
      assert first + second == second;
    }
  }

  /** The filter keeps every copy of a candidate whose text the bank lacks,
      duplicates within the batch included, and no copy of any other. */
  lemma {:induction false} UniqueNewCount(existing: seq<QuizQuestion>, batch: seq<QuizQuestion>, q: QuizQuestion)
    ensures multiset(UniqueNew(existing, batch))[q] == if HasText(existing, q.question) then 0 else multiset(batch)[q]
  {
    if HasText(existing, q.question) {
      assert q !in UniqueNew(existing, batch);
    } else if |batch| > 0 {
      UniqueNewCount(existing, batch[1..], q);
      UniqueNewHeadCount(existing, batch, q);
      HeadCount(batch, q);
    }
  }

  /** Unfolding the filter once, counted for one question. */
  lemma UniqueNewHeadCount(existing: seq<QuizQuestion>, batch: seq<QuizQuestion>, q: QuizQuestion)
    requires |batch| > 0
    ensures multiset(UniqueNew(existing, batch))[q] ==
      (if batch[0] == q && !HasText(existing, q.question) then 1 else 0) + multiset(UniqueNew(existing, batch[1..]))[q]
  {
    var rest := UniqueNew(existing, batch[1..]);
    if HasText(existing, batch[0].question) {
      assert UniqueNew(existing, batch) == rest;
    } else {
      assert UniqueNew(existing, batch) == [batch[0]] + rest;
    }
  }

  lemma HeadCount(batch: seq<QuizQuestion>, q: QuizQuestion)
    requires |batch| > 0
    ensures multiset(batch)[q] == (if batch[0] == q then 1 else 0) + multiset(batch[1..])[q]
  {
    assert batch == [batch[0]] + batch[1..];
  }

  /** One candidate is kept exactly when the bank lacks its text. */
  lemma UniqueNewSingleton(existing: seq<QuizQuestion>, q: QuizQuestion)
    ensures UniqueNew(existing, [q]) == if HasText(existing, q.question) then [] else [q]
  {
    assert [q][1..] == [];
  }

  /** The bank after one batch, when anything is saved: the old questions,
      then the new ones, keeping only the newest `max` of them. */
  function AddQuestionsToBank(bank: QuestionBank, batch: seq<QuizQuestion>, max: nat): (saved: Option<QuestionBank>)
    ensures saved.None? <==> forall k :: 0 <= k < |batch| ==> HasText(bank.questions, batch[k].question)
    ensures saved.Some? ==>
      var all := bank.questions + UniqueNew(bank.questions, batch);
      && |saved.value.questions| == Min(|all|, max)
      && saved.value.questions == all[|all| - |saved.value.questions|..]
  {
    var unique := UniqueNew(bank.questions, batch);
    if |unique| == 0 then
      assert forall k :: 0 <= k < |batch| && !HasText(bank.questions, batch[k].question) ==> batch[k] in unique;
      None
    else
      assert unique[0] in batch && !HasText(bank.questions, unique[0].question);
      var updated := bank.questions + unique;
      if |updated| > max then Some(QuestionBank(updated[|updated| - max..]))
      else Some(QuestionBank(updated))
  }

  /** Every question of a saved bank is an old one or a candidate whose text
      the old bank did not hold. */
  lemma SavedQuestionsAreOldOrNew(bank: QuestionBank, batch: seq<QuizQuestion>, max: nat)
    requires AddQuestionsToBank(bank, batch, max).Some?
    ensures var saved := AddQuestionsToBank(bank, batch, max).value.questions;
      forall k :: 0 <= k < |saved| ==>
        saved[k] in bank.questions || (saved[k] in batch && !HasText(bank.questions, saved[k].question))
  {
    var unique := UniqueNew(bank.questions, batch);
    var all := bank.questions + unique;
    var saved := AddQuestionsToBank(bank, batch, max).value.questions;
    forall k | 0 <= k < |saved|
      ensures saved[k] in bank.questions || (saved[k] in batch && !HasText(bank.questions, saved[k].question))
    {
      var j := |all| - |saved| + k;
      assert saved[k] == all[j];
      if j >= |bank.questions| {
        assert all[j] == unique[j - |bank.questions|];
      }
    }
  }

  /** Without eviction nothing old is lost: the result is the old bank
      followed by the new questions. */
  lemma NoEvictionKeepsEverything(bank: QuestionBank, batch: seq<QuizQuestion>, max: nat)
    requires |bank.questions| + |UniqueNew(bank.questions, batch)| <= max
    requires AddQuestionsToBank(bank, batch, max).Some?
    ensures AddQuestionsToBank(bank, batch, max).value.questions == bank.questions + UniqueNew(bank.questions, batch)
    ensures bank.questions <= AddQuestionsToBank(bank, batch, max).value.questions
  {
  }

  lemma {:induction false} UniqueNewKeepsDistinct(existing: seq<QuizQuestion>, batch: seq<QuizQuestion>)
    requires DistinctTexts(batch)
    ensures DistinctTexts(UniqueNew(existing, batch))
  {
    if |batch| > 0 {
      var rest := batch[1..];
      assert forall k :: 0 <= k < |rest| ==> rest[k] == batch[k + 1];
      UniqueNewKeepsDistinct(existing, rest);
      var tail := UniqueNew(existing, rest);
      forall k | 0 <= k < |tail|
        ensures tail[k].question != batch[0].question
      {
        var j :| 0 <= j < |rest| && rest[j] == tail[k];
        assert rest[j] == batch[j + 1];
      }
      if !HasText(existing, batch[0].question) {
        ConsDistinct(batch[0], tail);
      }
    }
  }

  lemma ConsDistinct(head: QuizQuestion, tail: seq<QuizQuestion>)
    requires DistinctTexts(tail)
    requires forall k :: 0 <= k < |tail| ==> tail[k].question != head.question
    ensures DistinctTexts([head] + tail)
  {
    var r := [head] + tail;
    forall i, j | 0 <= i < j < |r|
      ensures r[i].question != r[j].question
    {
      assert r[j] == tail[j - 1];
      if i > 0 {
        assert r[i] == tail[i - 1];
      }
    }
  }

  lemma AppendDistinct(prior: seq<QuizQuestion>, added: seq<QuizQuestion>)
    requires DistinctTexts(prior) && DistinctTexts(added)
    requires forall k :: 0 <= k < |added| ==> !HasText(prior, added[k].question)
    ensures DistinctTexts(prior + added)
  {
    var all := prior + added;
    forall i, j | 0 <= i < j < |all|
      ensures all[i].question != all[j].question
    {
      if j >= |prior| && i < |prior| {
        assert all[j] == added[j - |prior|];
        assert all[i] == prior[i];
      } else if i >= |prior| {
        assert all[i] == added[i - |prior|] && all[j] == added[j - |prior|];
      }
    }
  }

  lemma SuffixDistinct(all: seq<QuizQuestion>, start: nat)
    requires DistinctTexts(all) && start <= |all|
    ensures DistinctTexts(all[start..])
  {
    var tail := all[start..];
    forall i, j | 0 <= i < j < |tail|
      ensures tail[i].question != tail[j].question
    {
      assert tail[i] == all[start + i] && tail[j] == all[start + j];
    }
  }

  /** If the old bank and the batch each have distinct texts, so does the
      saved bank. */
  lemma SavedTextsDistinct(bank: QuestionBank, batch: seq<QuizQuestion>, max: nat)
    requires DistinctTexts(bank.questions)
    requires DistinctTexts(batch)
    requires AddQuestionsToBank(bank, batch, max).Some?
    ensures DistinctTexts(AddQuestionsToBank(bank, batch, max).value.questions)
  {
    var unique := UniqueNew(bank.questions, batch);
    UniqueNewKeepsDistinct(bank.questions, batch);
    AppendDistinct(bank.questions, unique);
    var all := bank.questions + unique;
    var saved := AddQuestionsToBank(bank, batch, max).value.questions;
    SuffixDistinct(all, |all| - |saved|);
  }

  lemma HasTextInAppend(prior: seq<QuizQuestion>, added: seq<QuizQuestion>, q: QuizQuestion)
    requires HasText(prior, q.question) || q in added
    ensures HasText(prior + added, q.question)
  {
    if HasText(prior, q.question) {
      var j :| 0 <= j < |prior| && prior[j].question == q.question;
      assert (prior + added)[j] == prior[j];
    } else {
      var j :| 0 <= j < |added| && added[j] == q;
      assert (prior + added)[|prior| + j] == added[j];
    }
  }

  /** Without eviction every candidate's text is in the saved bank. */
  lemma SavedHoldsBatchTexts(bank: QuestionBank, batch: seq<QuizQuestion>, max: nat)
    requires AddQuestionsToBank(bank, batch, max).Some?
    requires |bank.questions| + |UniqueNew(bank.questions, batch)| <= max
    ensures forall k :: 0 <= k < |batch| ==>
      HasText(AddQuestionsToBank(bank, batch, max).value.questions, batch[k].question)
  {
    var unique := UniqueNew(bank.questions, batch);
    var saved := AddQuestionsToBank(bank, batch, max).value.questions;
    assert saved == bank.questions + unique;
    forall k | 0 <= k < |batch|
      ensures HasText(saved, batch[k].question)
    {
      HasTextInAppend(bank.questions, unique, batch[k]);
    }
  }

  /** Without eviction a second identical batch saves nothing. */
  lemma AddTwiceSavesNothing(bank: QuestionBank, batch: seq<QuizQuestion>, max: nat)
    requires AddQuestionsToBank(bank, batch, max).Some?
    requires |bank.questions| + |UniqueNew(bank.questions, batch)| <= max
    ensures AddQuestionsToBank(AddQuestionsToBank(bank, batch, max).value, batch, max).None?
  {
    SavedHoldsBatchTexts(bank, batch, max);
  }

  /** With eviction a repeated batch can be saved again: a cap of one and a
      batch of two keeps only the second, and the second call brings back
      the first. */
  lemma EvictionBreaksIdempotence(a: QuizQuestion, b: QuizQuestion)
    requires a.question != b.question
    ensures AddQuestionsToBank(QuestionBank([]), [a, b], 1) == Some(QuestionBank([b]))
    ensures AddQuestionsToBank(QuestionBank([b]), [a, b], 1) == Some(QuestionBank([a]))
  {
    assert UniqueNew([], [b]) == [b];
    assert UniqueNew([], [a, b]) == [a, b];
    assert [] + [a, b] == [a, b];
    assert [a, b][2 - 1..] == [b];
    assert !HasText([b], a.question);
    assert HasText([b], b.question);
    assert UniqueNew([b], [b]) == [];
    assert UniqueNew([b], [a, b]) == [a];
  }

  /** Candidates sharing a text within one batch are all kept, whatever
      the bank, when the bank lacks that text. */
  lemma BatchDuplicatesKept(bank: QuestionBank, a: QuizQuestion, b: QuizQuestion)
    requires a.question == b.question && !HasText(bank.questions, a.question)
    ensures UniqueNew(bank.questions, [a, b]) == [a, b]
  {
    UniqueNewSingleton(bank.questions, a);
    UniqueNewSingleton(bank.questions, b);
    UniqueNewAppend(bank.questions, [a], [b]);
    assert [a] + [b] == [a, b];
  }
}

=== FILE: constants.dfy ===
/** The prize table and the safe levels (constants.ts). */
module Constants {

  /** Reverses a sequence, as `Array.prototype.reverse` does. */
  function Reverse<T>(s: seq<T>): seq<T> {
    seq(|s|, i requires 0 <= i < |s| => s[|s| - 1 - i])
  }

  /** The amounts in the order the source lists them, cheapest first. */
  const LISTED_AMOUNTS: seq<string> := [
    "€100", "€200", "€300", "€500", "€1.000",
    "€2.000", "€4.000", "€8.000", "€16.000", "€32.000",
    "€64.000", "€125.000", "€250.000", "€500.000", "€1.000.000"
  ]

  /** The table the program uses: the listed amounts reversed, so index 0 is
      the top prize. */
  const PRIZE_AMOUNTS: seq<string> := Reverse(LISTED_AMOUNTS)

  /** The safe levels, as ladder positions counted from the bottom. */
  const SAFE_LEVELS: seq<int> := [4, 9]

  lemma PrizeAmountsLayout()
    ensures |PRIZE_AMOUNTS| == 15
    ensures forall i :: 0 <= i < 15 ==> PRIZE_AMOUNTS[i] == LISTED_AMOUNTS[14 - i]
    ensures PRIZE_AMOUNTS[0] == "€1.000.000" && PRIZE_AMOUNTS[14] == "€100"
  {
    assert |LISTED_AMOUNTS| == 15;
    assert PRIZE_AMOUNTS == Reverse(LISTED_AMOUNTS);
  }

  /** No amount is listed twice. */
  lemma ListedAmountsDistinct()
    ensures forall i, j :: 0 <= i < j < |LISTED_AMOUNTS| ==> LISTED_AMOUNTS[i] != LISTED_AMOUNTS[j]
  {
  }

  /** The 15 amounts of the table are pairwise distinct; the ladder uses them
      as list keys. */
  lemma PrizeAmountsDistinct()
    ensures forall i, j :: 0 <= i < j < |PRIZE_AMOUNTS| ==> PRIZE_AMOUNTS[i] != PRIZE_AMOUNTS[j]
  {
    PrizeAmountsLayout();
    ListedAmountsDistinct();
    forall i, j | 0 <= i < j < |PRIZE_AMOUNTS|
      ensures PRIZE_AMOUNTS[i] != PRIZE_AMOUNTS[j]
    {
      assert PRIZE_AMOUNTS[i] == LISTED_AMOUNTS[14 - i];
      assert PRIZE_AMOUNTS[j] == LISTED_AMOUNTS[14 - j];
    }
  }

  /** Counted from the bottom, the safe levels 4 and 9 are the amounts the
      listing marks as safe points; read as indices into the reversed table
      they would instead name "€64.000" and "€2.000". */
  lemma SafeLevelsAmounts()
    ensures SAFE_LEVELS == [4, 9]
    ensures forall k :: 0 <= k < |SAFE_LEVELS| ==> 0 <= SAFE_LEVELS[k] < |PRIZE_AMOUNTS|
    ensures LISTED_AMOUNTS[SAFE_LEVELS[0]] == "€1.000" && LISTED_AMOUNTS[SAFE_LEVELS[1]] == "€32.000"
    ensures PRIZE_AMOUNTS[14 - SAFE_LEVELS[0]] == "€1.000" && PRIZE_AMOUNTS[14 - SAFE_LEVELS[1]] == "€32.000"
    ensures PRIZE_AMOUNTS[SAFE_LEVELS[0]] == "€64.000" && PRIZE_AMOUNTS[SAFE_LEVELS[1]] == "€2.000"
  {
    PrizeAmountsLayout();
  }
}

=== FILE: digits.dfy ===
/** Decimal digit strings: rendering a natural number the way a template
    literal does, and reading a run of digits back. */
module Digits {

  predicate IsDigit(c: char) {
    '0' <= c <= '9'
  }

  predicate AllDigits(s: string) {
    forall k :: 0 <= k < |s| ==> IsDigit(s[k])
  }

  function DigitChar(d: nat): (c: char)
    requires d < 10
    ensures IsDigit(c)
  {
    ['0', '1', '2', '3', '4', '5', '6', '7', '8', '9'][d]
  }

  function DigitValue(c: char): (d: nat)
    requires IsDigit(c)
    ensures d < 10
    ensures DigitChar(d) == c
  {
    (c as int - '0' as int) as nat
  }

  /** The value of a run of decimal digits, most significant first. */
  function DigitsValue(s: string): nat
    requires AllDigits(s)
  {
    if |s| == 0 then 0 else DigitsValue(s[..|s| - 1]) * 10 + DigitValue(s[|s| - 1])
  }

  /** `${n}` for a natural number: shortest decimal form, no sign, no padding
      (for the integer ranges JavaScript renders in decimal). */
  function NatToString(n: nat): (s: string)
    ensures |s| >= 1 && AllDigits(s)
    ensures |s| > 1 ==> s[0] != '0'
  {
    if n < 10 then [DigitChar(n)] else NatToString(n / 10) + [DigitChar(n % 10)]
  }

  /** Reading back a rendered number gives the number. */
  lemma {:induction false} NatToStringRoundTrip(n: nat)
    ensures DigitsValue(NatToString(n)) == n
  {
    var s := NatToString(n);
    if n < 10 {
      assert s[..0] == [];
    } else {
      NatToStringRoundTrip(n / 10);
      assert s[..|s| - 1] == NatToString(n / 10);
    }
  }
}

=== FILE: game.dfy ===
/** The game session of App.tsx as a state machine: one immutable state
    record and one pure function per event. The two timeouts of the answer
    handler are events of their own; the state remembers which callback is
    armed and what its closure captured, so only their order matters. */
module Game {
  import opened Types
  import Prize

  /** A timeout callback that has been armed and has not run yet. */
  datatype Pending =
    | NoCallback
      /** The 3000 ms callback of the answer handler, with the answer, the
          question list and the index its closure captured. */
    | OutcomeDue(answer: string, questions: seq<QuizQuestion>, index: int)
      /** The nested 2000 ms callback that moves to the next question. */
    | AdvanceDue

  datatype State = State(
    status: GameStatus,
    questions: seq<QuizQuestion>,
    currentQuestionIndex: int,
    selectedAnswer: Option<string>,
    fiftyFiftyUsed: bool,
    hiddenAnswers: seq<string>,
    pending: Pending)

  /** The state on first render. */
  const Initial: State := State(Welcome, [], 0, None, false, [], NoCallback)

  predicate ValidIndex(s: State) {
    0 <= s.currentQuestionIndex < |s.questions|
  }

  function Current(s: State): QuizQuestion
    requires ValidIndex(s)
  {
    s.questions[s.currentQuestionIndex]
  }

  /** `currentQ.answers.filter(a => a !== currentQ.correctAnswer)` */
  function WrongAnswers(q: QuizQuestion): (wrong: seq<string>)
    ensures forall k :: 0 <= k < |wrong| ==> wrong[k] in q.answers && wrong[k] != q.correctAnswer
    ensures forall a :: a in q.answers && a != q.correctAnswer ==> a in wrong
  {
    WrongAnswersOf(q.answers, q.correctAnswer)
  }

  function WrongAnswersOf(answers: seq<string>, correct: string): (wrong: seq<string>)
    ensures forall k :: 0 <= k < |wrong| ==> wrong[k] in answers && wrong[k] != correct
    ensures forall a :: a in answers && a != correct ==> a in wrong
  {
    if |answers| == 0 then []
    else
      var rest := WrongAnswersOf(answers[1..], correct);
      assert forall a :: a in answers && a != answers[0] ==> a in answers[1..];
      (if answers[0] == correct then [] else [answers[0]]) + rest
  }

  /** The two positions of the incorrect-answer list the random loop of the
      50:50 lifeline ends up with: the loop draws positions until it holds
      two different answers, so every run of it is one such pair. */
  predicate ValidChoice(wrong: seq<string>, first: int, second: int) {
    0 <= first < |wrong| && 0 <= second < |wrong| && wrong[first] != wrong[second]
  }

  /** The start button's handler up to its `await`: the loading screen. */
  function Start(s: State): (t: State)
    ensures t.status == Loading
    ensures t.(status := s.status) == s
  {
    s.(status := Loading)
  }

  /** The rest of the start handler, once the fetched questions arrive: a
      fresh session on question 0 with the lifeline available again. */
  function Loaded(s: State, fetched: seq<QuizQuestion>): (t: State)
    ensures t.status == Playing && t.questions == fetched
    ensures t.currentQuestionIndex == 0 && t.selectedAnswer == None
    ensures !t.fiftyFiftyUsed && t.hiddenAnswers == []
    ensures t.pending == s.pending
  {
    State(Playing, fetched, 0, None, false, [], s.pending)
  }

  /** The answer handler: ignored unless a question is being played, else
      the answer is locked in and the 3000 ms outcome callback armed. */
  function Select(s: State, answer: string): (t: State)
    ensures s.status != Playing ==> t == s
    ensures s.status == Playing ==>
      && t.status == AnswerSelected
      && t.selectedAnswer == Some(answer)
      && t.pending == OutcomeDue(answer, s.questions, s.currentQuestionIndex)
      && t.(status := s.status, selectedAnswer := s.selectedAnswer, pending := s.pending) == s
  {
    if s.status != Playing then s
    else s.(status := AnswerSelected, selectedAnswer := Some(answer),
            pending := OutcomeDue(answer, s.questions, s.currentQuestionIndex))
  }

  /** The 3000 ms callback. It compares the captured answer with the captured
      question's correct answer: a wrong answer or a right one on the last
      question ends the game, a right one on any other question arms the
      advance callback. A captured index outside the list makes the callback
      throw before it changes anything. */
  function Resolve(s: State): (t: State)
    ensures !s.pending.OutcomeDue? ==> t == s
    ensures t.currentQuestionIndex == s.currentQuestionIndex && t.questions == s.questions
    ensures t.selectedAnswer == s.selectedAnswer && t.hiddenAnswers == s.hiddenAnswers
    ensures t.fiftyFiftyUsed == s.fiftyFiftyUsed
    ensures s.pending.OutcomeDue? ==>
      var p := s.pending;
      var inRange := 0 <= p.index < |p.questions|;
      var ends := inRange && (p.answer != p.questions[p.index].correctAnswer || p.index == |p.questions| - 1);
      && (t.pending == AdvanceDue <==>
            inRange && p.answer == p.questions[p.index].correctAnswer && p.index < |p.questions| - 1)
      && (t.pending != AdvanceDue ==> t.pending == NoCallback)
      && (ends ==> t.status == GameOver)
      && (!ends ==> t.status == s.status)
  {
    match s.pending
    case OutcomeDue(answer, questions, index) =>
      if !(0 <= index < |questions|) then s.(pending := NoCallback)
      else if answer == questions[index].correctAnswer then
        if index == |questions| - 1 then s.(status := GameOver, pending := NoCallback)
        else s.(pending := AdvanceDue)
      else s.(status := GameOver, pending := NoCallback)
    case _ => s
  }

  /** The 2000 ms callback: the next question, with the selection and the
      hidden answers cleared; the lifeline flag is left as it is. */
  function Advance(s: State): (t: State)
    ensures !s.pending.AdvanceDue? ==> t == s
    ensures s.pending.AdvanceDue? ==>
      && t.status == Playing
      && t.currentQuestionIndex == s.currentQuestionIndex + 1
      && t.selectedAnswer == None && t.hiddenAnswers == []
      && t.fiftyFiftyUsed == s.fiftyFiftyUsed && t.questions == s.questions
      && t.pending == NoCallback
  {
    if s.pending.AdvanceDue? then
      s.(status := Playing, currentQuestionIndex := s.currentQuestionIndex + 1,
         selectedAnswer := None, hiddenAnswers := [], pending := NoCallback)
    else s
  }

  /** The 50:50 button: ignored once used or outside play; otherwise it marks
      the lifeline used and hides the two chosen incorrect answers. */
  function FiftyFifty(s: State, first: int, second: int): (t: State)
    requires s.status == Playing && !s.fiftyFiftyUsed ==>
      ValidIndex(s) && ValidChoice(WrongAnswers(Current(s)), first, second)
    ensures s.fiftyFiftyUsed || s.status != Playing ==> t == s
    ensures s.status == Playing && !s.fiftyFiftyUsed ==>
      && t.fiftyFiftyUsed
      && |t.hiddenAnswers| == 2
      && t.hiddenAnswers[0] != t.hiddenAnswers[1]
      && (forall h :: h in t.hiddenAnswers ==> h in Current(s).answers && h != Current(s).correctAnswer)
      && t.(fiftyFiftyUsed := s.fiftyFiftyUsed, hiddenAnswers := s.hiddenAnswers) == s
  {
    if s.fiftyFiftyUsed || s.status != Playing then s
    else
      var wrong := WrongAnswers(Current(s));
      s.(fiftyFiftyUsed := true, hiddenAnswers := [wrong[first], wrong[second]])
  }

  /** How the button of `answer` is drawn. */
  function AnswerStateOf(s: State, answer: string): (st: AnswerState)
    requires answer !in s.hiddenAnswers && (s.status == AnswerSelected || s.status == GameOver) ==> ValidIndex(s)
    ensures answer in s.hiddenAnswers <==> st == Hidden
    ensures st == Correct ==> ValidIndex(s) && answer == Current(s).correctAnswer
    ensures st == Incorrect ==> ValidIndex(s) && s.selectedAnswer == Some(answer) && answer != Current(s).correctAnswer
    ensures st == Selected ==> s.selectedAnswer == Some(answer) && s.status != AnswerSelected && s.status != GameOver
    ensures answer !in s.hiddenAnswers && (s.status == AnswerSelected || s.status == GameOver) ==>
      && (answer == Current(s).correctAnswer ==> st == Correct)
      && (answer != Current(s).correctAnswer && s.selectedAnswer == Some(answer) ==> st == Incorrect)
    ensures s.selectedAnswer != Some(answer) && st != Hidden ==> st == Default || st == Correct
    ensures answer !in s.hiddenAnswers && s.selectedAnswer == Some(answer)
              && s.status != AnswerSelected && s.status != GameOver ==>
            st == Selected
    ensures st == Correct || st == Incorrect ==> s.status == AnswerSelected || s.status == GameOver
  {
    if answer in s.hiddenAnswers then Hidden
    else if (s.status == AnswerSelected || s.status == GameOver) && answer == Current(s).correctAnswer then Correct
    else if (s.status == AnswerSelected || s.status == GameOver) && s.selectedAnswer == Some(answer) then Incorrect
    else if s.selectedAnswer == Some(answer) then Selected
    else Default
  }

  /** The amount on the game-over screen for this state: one of four
      strings, whatever the state. */
  function GameOverPrize(s: State): (prize: string)
    ensures prize in {"€0", "€100", "€32.000", "€1.000"}
  {
    var correct := if ValidIndex(s) then Some(Current(s).correctAnswer) else None;
    Prize.FinalPrize(s.currentQuestionIndex, s.selectedAnswer, correct, |s.questions|)
  }

  /** Inputs the running program can receive, one at a time. */
  datatype Event =
    | StartClicked
    | QuestionsLoaded(fetched: seq<QuizQuestion>)
    | AnswerClicked(answer: string)
    | OutcomeTimeout
    | AdvanceTimeout
    | FiftyFiftyClicked(first: int, second: int)

  /** When an event can happen: a button only while the screen shows it and
      only while it is not disabled (an answer button is clickable only when
      drawn in its default state, the 50:50 button only until it is used),
      a callback only while armed, the fetch
      only while loading. The fetch is taken to deliver at least one
      question. */
  predicate Enabled(s: State, e: Event)
    ensures Enabled(s, e) && e.AnswerClicked? ==>
      && (s.status == Playing || s.status == AnswerSelected)
      && ValidIndex(s) && e.answer in Current(s).answers
      && e.answer !in s.hiddenAnswers
      && s.selectedAnswer != Some(e.answer)
    ensures Enabled(s, e) && e.FiftyFiftyClicked? ==>
      (s.status == Playing || s.status == AnswerSelected) && !s.fiftyFiftyUsed
  {
    match e
    case StartClicked => s.status == Welcome || s.status == GameOver
    case QuestionsLoaded(fetched) => s.status == Loading && |fetched| >= 1
    case AnswerClicked(answer) =>
      && (s.status == Playing || s.status == AnswerSelected)
      && ValidIndex(s)
      && answer in Current(s).answers
      && AnswerStateOf(s, answer) == Default
    case OutcomeTimeout => s.pending.OutcomeDue?
    case AdvanceTimeout => s.pending.AdvanceDue?
    case FiftyFiftyClicked(first, second) =>
      && (s.status == Playing || s.status == AnswerSelected)
      && !s.fiftyFiftyUsed
      && (s.status == Playing && !s.fiftyFiftyUsed ==>
            ValidIndex(s) && ValidChoice(WrongAnswers(Current(s)), first, second))
  }

  function Step(s: State, e: Event): State
    requires Enabled(s, e)
  {
    match e
    case StartClicked => Start(s)
    case QuestionsLoaded(fetched) => Loaded(s, fetched)
    case AnswerClicked(answer) => Select(s, answer)
    case OutcomeTimeout => Resolve(s)
    case AdvanceTimeout => Advance(s)
    case FiftyFiftyClicked(first, second) => FiftyFifty(s, first, second)
  }

  /** Hidden answers are none, or two different incorrect answers of the
      question on screen. */
  predicate HiddenOk(s: State) {
    || s.hiddenAnswers == []
    || (&& s.fiftyFiftyUsed
        && ValidIndex(s)
        && |s.hiddenAnswers| == 2
        && s.hiddenAnswers[0] != s.hiddenAnswers[1]
        && forall h :: h in s.hiddenAnswers ==> h in Current(s).answers && h != Current(s).correctAnswer)
  }

  /** What holds in every state the program can reach. */
  predicate Inv(s: State) {
    && HiddenOk(s)
    && (s.status == Playing || s.status == AnswerSelected || s.status == GameOver ==> ValidIndex(s))
    && (s.status == Welcome ==> s == Initial)
    && (s.status == Playing ==> s.selectedAnswer == None)
    && (s.status == AnswerSelected || s.status == GameOver ==> s.selectedAnswer.Some?)
    && (s.status != AnswerSelected ==> s.pending == NoCallback)
    && (s.status == AnswerSelected ==>
          || s.pending == OutcomeDue(s.selectedAnswer.value, s.questions, s.currentQuestionIndex)
          || (&& s.pending == AdvanceDue
              && s.currentQuestionIndex < |s.questions| - 1
              && s.selectedAnswer.value == Current(s).correctAnswer))
  }

  lemma InitialInv()
    ensures Inv(Initial)
  {
  }

  lemma StepKeepsInv(s: State, e: Event)
    requires Inv(s) && Enabled(s, e)
    ensures Inv(Step(s, e))
  {
  }

  predicate ValidTrace(s: State, events: seq<Event>)
    decreases |events|
  {
    |events| == 0 || (Enabled(s, events[0]) && ValidTrace(Step(s, events[0]), events[1..]))
  }

  function Run(s: State, events: seq<Event>): State
    requires ValidTrace(s, events)
    decreases |events|
  {
    if |events| == 0 then s else Run(Step(s, events[0]), events[1..])
  }

  /** Every state reached from the first render satisfies the invariant; in
      particular, while a question is on screen its index is in range. */
  lemma {:induction false} RunKeepsInv(s: State, events: seq<Event>)
    requires Inv(s) && ValidTrace(s, events)
    decreases |events|
    ensures Inv(Run(s, events))
    ensures var t := Run(s, events);
      t.status == Playing || t.status == AnswerSelected ==> 0 <= t.currentQuestionIndex < |t.questions|
  {
    if |events| > 0 {
      StepKeepsInv(s, events[0]);
      RunKeepsInv(Step(s, events[0]), events[1..]);
    }
  }

  /** The program cannot keep the invariant if the fetch delivers nothing:
      it would be playing with no question on screen. */
  lemma EmptyLoadBreaksInv(s: State)
    requires s.status == Loading
    ensures !Inv(Loaded(s, []))
  {
  }

  /** The 3000 ms outcome callback, read in terms of the state on screen: a wrong
      answer ends the game, a right one on the last question ends it too,
      and a right one elsewhere leads, through the advance callback, to the
      next question with the selection and hidden answers cleared and the
      lifeline flag untouched. */
  lemma ResolveOutcome(s: State)
    requires Inv(s) && s.pending.OutcomeDue?
    ensures ValidIndex(s) && s.selectedAnswer.Some?
    ensures var t := Resolve(s);
      var chosen := s.selectedAnswer.value;
      var correct := Current(s).correctAnswer;
      && (chosen != correct ==> t.status == GameOver)
      && (chosen == correct && s.currentQuestionIndex == |s.questions| - 1 ==> t.status == GameOver)
      && (chosen == correct && s.currentQuestionIndex < |s.questions| - 1 ==>
            var u := Advance(t);
            && t.status == AnswerSelected
            && u.status == Playing
            && u.currentQuestionIndex == s.currentQuestionIndex + 1
            && u.selectedAnswer == None && u.hiddenAnswers == []
            && u.fiftyFiftyUsed == s.fiftyFiftyUsed
            && ValidIndex(u))
  {
  }

  /** The question index changes only by a load, back to 0, or by the
      advance callback, by exactly one after a right answer that was not the
      last. */
  lemma StepIndex(s: State, e: Event)
    requires Inv(s) && Enabled(s, e)
    ensures var t := Step(s, e);
      || t.currentQuestionIndex == s.currentQuestionIndex
      || (e.QuestionsLoaded? && t.currentQuestionIndex == 0)
      || (&& e.AdvanceTimeout?
          && t.currentQuestionIndex == s.currentQuestionIndex + 1
          && s.selectedAnswer == Some(Current(s).correctAnswer)
          && s.currentQuestionIndex < |s.questions| - 1)
  {
  }

  /** The lifeline flag is set only by the 50:50 button and cleared only by
      a load; moving to the next question keeps it. */
  lemma StepFiftyFiftyFlag(s: State, e: Event)
    requires Enabled(s, e)
    ensures var t := Step(s, e);
      && (!s.fiftyFiftyUsed && t.fiftyFiftyUsed ==> e.FiftyFiftyClicked?)
      && (s.fiftyFiftyUsed && !t.fiftyFiftyUsed ==> e.QuestionsLoaded?)
      && (e.QuestionsLoaded? ==> !t.fiftyFiftyUsed)
  {
  }

  /** Only the first answer given to a question is taken. */
  lemma SecondAnswerIgnored(s: State, first: string, second: string)
    ensures Select(Select(s, first), second) == Select(s, first)
  {
  }

  /** The correct answer of the question on screen is never hidden, and it
      is shown as correct as soon as an answer has been chosen. */
  lemma CorrectNeverHidden(s: State)
    requires Inv(s) && ValidIndex(s)
    ensures AnswerStateOf(s, Current(s).correctAnswer) != Hidden
    ensures s.status == AnswerSelected || s.status == GameOver ==>
      AnswerStateOf(s, Current(s).correctAnswer) == Correct
  {
  }

  /** While answer buttons are on screen, none is ever drawn as "selected":
      once an answer is chosen, correctness shows at once. */
  lemma SelectedNeverDrawn(s: State, answer: string)
    requires Inv(s) && (s.status == Playing || s.status == AnswerSelected)
    ensures AnswerStateOf(s, answer) != Selected
  {
  }

  predicate Distinct(s: seq<string>) {
    forall i, j :: 0 <= i < j < |s| ==> s[i] != s[j]
  }

  /** What the generator is asked for: four different answers, one of them
      correct. The program does not check the last two. */
  predicate WellFormed(q: QuizQuestion) {
    |q.answers| == 4 && Distinct(q.answers) && q.correctAnswer in q.answers
  }

  /** The answers not hidden, in button order. */
  function VisibleAnswers(answers: seq<string>, hidden: seq<string>): (shown: seq<string>)
    ensures forall a :: a in shown <==> a in answers && a !in hidden
    ensures |shown| <= |answers|
  {
    if |answers| == 0 then []
    else
      assert forall a :: a in answers <==> a == answers[0] || a in answers[1..];
      (if answers[0] in hidden then [] else [answers[0]]) + VisibleAnswers(answers[1..], hidden)
  }

  lemma {:induction false} WrongAnswersOfDistinct(answers: seq<string>, correct: string)
    requires Distinct(answers)
    ensures Distinct(WrongAnswersOf(answers, correct))
    ensures |WrongAnswersOf(answers, correct)| == |answers| - (if correct in answers then 1 else 0)
  {
    if |answers| > 0 {
      var rest := answers[1..];
      assert Distinct(rest) by {
        assert forall k :: 0 <= k < |rest| ==> rest[k] == answers[k + 1];
      }
      assert answers[0] !in rest by {
        assert forall k :: 0 <= k < |rest| ==> rest[k] == answers[k + 1];
      }
      assert correct in answers <==> correct == answers[0] || correct in rest;
      WrongAnswersOfDistinct(rest, correct);
    }
  }

  lemma {:induction false} VisibleDistinctCount(answers: seq<string>, h1: string, h2: string)
    requires Distinct(answers) && h1 != h2
    ensures Distinct(VisibleAnswers(answers, [h1, h2]))
    ensures |VisibleAnswers(answers, [h1, h2])| ==
      |answers| - (if h1 in answers then 1 else 0) - (if h2 in answers then 1 else 0)
  {
    if |answers| > 0 {
      var rest := answers[1..];
      assert Distinct(rest) by {
        assert forall k :: 0 <= k < |rest| ==> rest[k] == answers[k + 1];
      }
      assert answers[0] !in rest by {
        assert forall k :: 0 <= k < |rest| ==> rest[k] == answers[k + 1];
      }
      assert forall a :: a in answers <==> a == answers[0] || a in rest;
      VisibleDistinctCount(rest, h1, h2);
    }
  }

  /** A well-formed question has three different wrong answers, so the
      random loop of the lifeline always has a pair to end with. */
  lemma WellFormedHasChoice(q: QuizQuestion)
    requires WellFormed(q)
    ensures |WrongAnswers(q)| == 3 && Distinct(WrongAnswers(q))
    ensures ValidChoice(WrongAnswers(q), 0, 1)
  {
    WrongAnswersOfDistinct(q.answers, q.correctAnswer);
  }

  /** When every wrong answer of a question is the same string (four answers
      pass the fetch's length check, nothing more), no pair of positions
      names two different wrong answers: the lifeline's random loop has no
      way to end, so the model has no step for it. */
  lemma NoChoiceWhenWrongAnswersAlike(q: QuizQuestion, x: string, first: int, second: int)
    requires forall a :: a in q.answers ==> a == q.correctAnswer || a == x
    ensures !ValidChoice(WrongAnswers(q), first, second)
  {
    var wrong := WrongAnswers(q);
    if 0 <= first < |wrong| && 0 <= second < |wrong| {
      assert wrong[first] in q.answers && wrong[second] in q.answers;
    }
  }

  /** On a well-formed question the lifeline leaves exactly two answers
      visible: the correct one and one wrong one. */
  lemma FiftyFiftyLeavesTwo(s: State, first: int, second: int)
    requires s.status == Playing && !s.fiftyFiftyUsed
    requires ValidIndex(s) && WellFormed(Current(s))
    requires ValidChoice(WrongAnswers(Current(s)), first, second)
    ensures var t := FiftyFifty(s, first, second);
      var shown := VisibleAnswers(Current(s).answers, t.hiddenAnswers);
      && |shown| == 2
      && Current(s).correctAnswer in shown
      && |WrongAnswersOf(shown, Current(s).correctAnswer)| == 1
  {
    var q := Current(s);
    var t := FiftyFifty(s, first, second);
    var h := t.hiddenAnswers;
    assert h == [h[0], h[1]];
    VisibleDistinctCount(q.answers, h[0], h[1]);
    var shown := VisibleAnswers(q.answers, h);
    WrongAnswersOfDistinct(shown, q.correctAnswer);
  }

  /** Winning shows "€100"; losing shows the amount the question index
      selects in the prize table. */
  lemma GameOverPrizeAfterResolve(s: State)
    requires Inv(s) && s.pending.OutcomeDue?
    requires Resolve(s).status == GameOver
    ensures ValidIndex(s) && s.selectedAnswer.Some?
    ensures var won := s.selectedAnswer.value == Current(s).correctAnswer;
      var q := s.currentQuestionIndex;
      var prize := GameOverPrize(Resolve(s));
      && (won ==> q == |s.questions| - 1 && prize == "€100")
      && (!won && q <= 5 ==> prize == "€0")
      && (!won && 6 <= q <= 10 ==> prize == "€32.000")
      && (!won && 11 <= q ==> prize == "€1.000")
  {
  }
}

=== FILE: labels.dfy ===
/** The answer-button label: the list renders each answer as `${index}:${answer}`
    and the button splits it back into a letter prefix and the answer text. */
module Labels {
  import opened Types
  import opened Digits

  const PREFIXES: seq<string> := ["A:", "B:", "C:", "D:"]

  /** What the button recovers from a label: `parseInt` of the part before the
      first ':' (None is NaN) and the text after the first ':'. */
  datatype DecodedLabel = DecodedLabel(index: Option<int>, text: string)

  /** The label of the answer at `index`: its position in decimal, a ':',
      then the answer unchanged. */
  function Encode(index: nat, answer: string): (l: string)
    ensures var n := |NatToString(index)|;
      && |l| == n + 1 + |answer|
      && l[..n] == NatToString(index) && l[n] == ':' && l[n + 1..] == answer
  {
    NatToString(index) + ":" + answer
  }

  /** `String.prototype.indexOf` for one character: -1 when absent. */
  function IndexOf(s: string, c: char): (k: int)
    ensures -1 <= k < |s|
    ensures k == -1 <==> c !in s
    ensures k >= 0 ==> s[k] == c && c !in s[..k]
  {
    if |s| == 0 then -1
    else if s[0] == c then 0
    else
      var k := IndexOf(s[1..], c);
      assert k >= 0 ==> s[..k + 1] == [s[0]] + s[1..][..k];
      if k == -1 then -1 else k + 1
  }

  /** `s.split(c)[0]`: everything before the first `c`, or all of `s`. */
  function BeforeFirst(s: string, c: char): string {
    var k := IndexOf(s, c);
    if k == -1 then s else s[..k]
  }

  /** `s.substring(s.indexOf(c) + 1)`: everything after the first `c`, or all
      of `s` when there is none (indexOf gives -1, so the cut is at 0). */
  function AfterFirst(s: string, c: char): string {
    s[IndexOf(s, c) + 1..]
  }

  /** The characters `parseInt` skips before the number: ECMAScript white
      space and line terminators. */
  predicate IsJsWhitespace(c: char) {
    || c == ' ' || c == '\t' || c == '\n' || c == '\r' || c == '\U{000B}' || c == '\U{000C}'
    || c == '\U{00A0}' || c == '\U{1680}' || ('\U{2000}' <= c <= '\U{200A}')
    || c == '\U{2028}' || c == '\U{2029}' || c == '\U{202F}' || c == '\U{205F}'
    || c == '\U{3000}' || c == '\U{FEFF}'
  }

  function DropWhitespace(s: string): (r: string)
    ensures |r| <= |s| && r == s[|s| - |r|..]
    ensures |r| > 0 ==> !IsJsWhitespace(r[0])
  {
    if |s| > 0 && IsJsWhitespace(s[0]) then DropWhitespace(s[1..]) else s
  }

  /** The longest prefix of `s` made of decimal digits. */
  function TakeDigits(s: string): (r: string)
    ensures AllDigits(r)
    ensures r <= s
    ensures |r| < |s| ==> !IsDigit(s[|r|])
  {
    if |s| > 0 && IsDigit(s[0]) then [s[0]] + TakeDigits(s[1..]) else []
  }

  /** `parseInt(s, 10)`: optional white space, an optional sign, then the
      longest run of digits; NaN (None) when there is no digit. */
  function ParseInt(s: string): (r: Option<int>)
    ensures |s| == 0 ==> r == None
    ensures AllDigits(s) && |s| > 0 ==> r == Some(DigitsValue(s))
    ensures r.Some? && r.value < 0 ==> '-' in s
  {
    var t := DropWhitespace(s);
    var unsigned := if |t| > 0 && (t[0] == '-' || t[0] == '+') then t[1..] else t;
    var digits := TakeDigits(unsigned);
    assert AllDigits(s) && |s| > 0 ==> digits == s by {
      if AllDigits(s) && |s| > 0 {
        assert !IsJsWhitespace(s[0]) && t == s;
      }
    }
    var magnitude: int := DigitsValue(digits);
    if |digits| == 0 then None
    else if |t| > 0 && t[0] == '-' then Some(-magnitude)
    else Some(magnitude)
  }

  /** Splits a label at its first ':': the number is read from what comes
      before it, the text is what comes after it; with no ':' at all both
      are read from the whole label. */
  function Decode(answerLabel: string): (d: DecodedLabel)
    ensures ':' !in answerLabel ==> d == DecodedLabel(ParseInt(answerLabel), answerLabel)
    ensures ':' in answerLabel ==>
      exists k :: 0 <= k < |answerLabel| && answerLabel[k] == ':' && ':' !in answerLabel[..k]
        && d == DecodedLabel(ParseInt(answerLabel[..k]), answerLabel[k + 1..])
  {
    DecodedLabel(ParseInt(BeforeFirst(answerLabel, ':')), AfterFirst(answerLabel, ':'))
  }

  /** `prefixes[answerIndex]`: defined for indices 0 to 3, undefined (None)
      otherwise, NaN included. */
  function PrefixOf(answerLabel: string): (prefix: Option<string>)
    ensures prefix.Some? <==> exists i :: 0 <= i < 4 && Decode(answerLabel).index == Some(i)
  {
    match Decode(answerLabel).index
    case Some(i) => if 0 <= i < |PREFIXES| then Some(PREFIXES[i]) else None
    case None => None
  }

  lemma NoColonInDigits(s: string)
    requires AllDigits(s)
    ensures ':' !in s
  {
  }

  /** The first ':' of a label is the one right after the number, so the
      split gives back the number's digits and the answer. */
  lemma SplitEncode(index: nat, answer: string)
    ensures BeforeFirst(Encode(index, answer), ':') == NatToString(index)
    ensures AfterFirst(Encode(index, answer), ':') == answer
  {
    var digits := NatToString(index);
    var l := Encode(index, answer);
    NoColonInDigits(digits);
    assert l[..|digits|] == digits;
    assert l[|digits|] == ':';
    var k := IndexOf(l, ':');
    assert k == |digits| by {
      if k < |digits| {
        assert false;
      } else if k > |digits| {
        assert false;
      }
    }
  }

  /** `parseInt` reads back a rendered natural number. */
  lemma ParseIntNatToString(n: nat)
    ensures ParseInt(NatToString(n)) == Some(n)
  {
    var digits := NatToString(n);
    assert DropWhitespace(digits) == digits;
    assert TakeDigits(digits) == digits;
    NatToStringRoundTrip(n);
  }

  /** Decoding a label gives back the position and the answer, whatever the
      answer contains, ':' included. */
  lemma DecodeEncode(index: nat, answer: string)
    ensures Decode(Encode(index, answer)) == DecodedLabel(Some(index), answer)
  {
    SplitEncode(index, answer);
    ParseIntNatToString(index);
  }

  /** The four button positions always find their letter. */
  lemma PrefixOfEncode(index: nat, answer: string)
    requires index < 4
    ensures PrefixOf(Encode(index, answer)) == Some(PREFIXES[index])
  {
    DecodeEncode(index, answer);
  }
}

=== FILE: prize.dfy ===
/** The prize ladder and the amount shown on the game-over screen
    (App.tsx: `prizeLevel`, the ladder's safe flags and `getFinalPrize`). */
module Prize {
  import opened Types
  import opened Constants

  predicate Ascending(s: seq<int>) {
    forall i, j :: 0 <= i < j < |s| ==> s[i] <= s[j]
  }

  function Insert(x: int, s: seq<int>): (r: seq<int>)
    requires Ascending(s)
    ensures Ascending(r)
    ensures multiset(r) == multiset(s) + multiset{x}
    ensures |r| == |s| + 1 && (r[0] == x || (|s| > 0 && r[0] == s[0]))
  {
    if |s| == 0 then [x]
    else if x <= s[0] then [x] + s
    else
      var tail := Insert(x, s[1..]);
      assert s == [s[0]] + s[1..];
      assert s[0] <= tail[0];
      [s[0]] + tail
  }

  /** Numeric ascending sort, as `sort((a, b) => a - b)` does on numbers. */
  function SortAscending(s: seq<int>): (r: seq<int>)
    ensures Ascending(r)
    ensures multiset(r) == multiset(s)
  {
    if |s| == 0 then []
    else
      assert s == [s[0]] + s[1..];
      Insert(s[0], SortAscending(s[1..]))
  }

  /** The ladder row a question index is drawn on: rows are indices into
      the reversed table, so question 0 sits on row 14. */
  function PrizeLevel(index: int): (row: int)
    ensures 0 <= index < |PRIZE_AMOUNTS| ==> 0 <= row < |PRIZE_AMOUNTS|
    ensures 0 <= index < |PRIZE_AMOUNTS| ==> PRIZE_AMOUNTS[row] == LISTED_AMOUNTS[index]
  {
    PrizeAmountsLayout();
    |PRIZE_AMOUNTS| - 1 - index
  }

  /** The ladder's safe flag for row `row`. */
  predicate IsSafeRow(row: int) {
    |PRIZE_AMOUNTS| - 1 - row in SAFE_LEVELS
  }

  /** The safe levels turned into indices of the reversed table. */
  function SafeLevelRows(levels: seq<int>): seq<int> {
    seq(|levels|, k requires 0 <= k < |levels| => |PRIZE_AMOUNTS| - 1 - levels[k])
  }

  /** The rows `getFinalPrize` may award, in the order its loop visits them. */
  function SafeIndices(): seq<int> {
    SortAscending(SafeLevelRows(SAFE_LEVELS))
  }

  lemma SafeIndicesValue()
    ensures SafeIndices() == [5, 10]
  {
    PrizeAmountsLayout();
    assert SafeLevelRows(SAFE_LEVELS) == [10, 5];
    assert [10, 5][1..] == [5];
    assert [5][1..] == [];
    assert SortAscending([5]) == [5];
    assert Insert(10, [5]) == [5] + Insert(10, []);
  }

  /** The loop over the sorted safe indices: every index the question index
      exceeds overwrites the running result `won`. */
  function PrizeWonIndex(index: int, safe: seq<int>, won: int): (r: int)
    ensures r == won || r in safe
  {
    if |safe| == 0 then won
    else PrizeWonIndex(index, safe[1..], if index > safe[0] then safe[0] else won)
  }

  /** Over ascending indices the loop yields the largest one strictly below
      the question index, and leaves `won` alone when there is none. */
  lemma {:induction false} PrizeWonIndexIsLargestBelow(index: int, safe: seq<int>, won: int)
    requires Ascending(safe)
    ensures (forall k :: 0 <= k < |safe| ==> index <= safe[k]) ==> PrizeWonIndex(index, safe, won) == won
    ensures (exists k :: 0 <= k < |safe| && safe[k] < index) ==>
      var r := PrizeWonIndex(index, safe, won);
      && r in safe
      && r < index
      && forall k :: 0 <= k < |safe| && safe[k] < index ==> safe[k] <= r
  {
    if |safe| > 0 {
      var next := if index > safe[0] then safe[0] else won;
      var rest := safe[1..];
      PrizeWonIndexIsLargestBelow(index, rest, next);
      var r := PrizeWonIndex(index, safe, won);
      assert r == PrizeWonIndex(index, rest, next);
      assert forall k :: 0 <= k < |rest| ==> rest[k] == safe[k + 1];
      if exists k :: 0 <= k < |rest| && rest[k] < index {
        assert r in rest && r < index;
      } else if index > safe[0] {
        assert r == safe[0];
      }
    }
  }

  predicate IsWin(index: int, selected: Option<string>, correct: Option<string>, count: int) {
    selected.Some? && correct.Some? && selected.value == correct.value && index == count - 1
  }

  /** The amount on the game-over screen, as the code computes it: `correct`
      is `questions[index]?.correctAnswer` and `count` is `questions.length`.
      A won game shows the last table entry, "€100", and a lost one shows the
      row of the largest safe index strictly below the question index. */
  function FinalPrize(index: int, selected: Option<string>, correct: Option<string>, count: nat): (prize: string)
    ensures IsWin(index, selected, correct, count) ==> prize == "€100"
    ensures !IsWin(index, selected, correct, count) && index <= 5 ==> prize == "€0"
    ensures !IsWin(index, selected, correct, count) && 6 <= index <= 10 ==> prize == PRIZE_AMOUNTS[5] == "€32.000"
    ensures !IsWin(index, selected, correct, count) && 11 <= index ==> prize == PRIZE_AMOUNTS[10] == "€1.000"
  {
    PrizeAmountsLayout();
    if IsWin(index, selected, correct, count) then PRIZE_AMOUNTS[|PRIZE_AMOUNTS| - 1]
    else
      SafeIndicesValue();
      PrizeWonIndexIsLargestBelow(index, SafeIndices(), -1);
      var won := PrizeWonIndex(index, SafeIndices(), -1);
      if won != -1 then PRIZE_AMOUNTS[won] else "€0"
  }

  /** Losing later can pay less: a wrong answer on question 11 (listed amount
      4) pays less than one on question 10 (listed amount 9), and a won game
      pays the cheapest amount of the table. */
  lemma FinalPrizeNotMonotone(selected: Option<string>, correct: Option<string>)
    requires selected != correct
    ensures FinalPrize(10, selected, correct, 15) == LISTED_AMOUNTS[9]
    ensures FinalPrize(11, selected, correct, 15) == LISTED_AMOUNTS[4]
    ensures FinalPrize(14, correct, correct, 15) == LISTED_AMOUNTS[0] || correct.None?
  {
    PrizeAmountsLayout();
  }

  /** The rows the ladder flags as safe are exactly the rows `FinalPrize` can
      award after a wrong answer. */
  lemma SafeRowsAreAwardable()
    ensures forall row :: 0 <= row < |PRIZE_AMOUNTS| ==> (IsSafeRow(row) <==> row in SafeIndices())
    ensures forall row :: 0 <= row < |PRIZE_AMOUNTS| && IsSafeRow(row) ==> row == 5 || row == 10
  {
    PrizeAmountsLayout();
    SafeIndicesValue();
  }
}

=== FILE: types.dfy ===
/** The records and enumerations of the quiz (types.ts), plus the Option
    datatype used for the source's `null` / `undefined` / `NaN` values. */
module Types {

  /** `null`, `undefined` or `NaN` in the source is None. */
  datatype Option<+T> = None | Some(value: T)

  /** One multiple-choice question. Nothing in the type itself promises four
      answers, distinct answers, or that the correct answer is among them. */
  datatype QuizQuestion = QuizQuestion(question: string, answers: seq<string>, correctAnswer: string)

  /** The screen the game is on; exactly one at a time. */
  datatype GameStatus = Welcome | Loading | Playing | AnswerSelected | GameOver

  /** How one answer button is drawn. */
  datatype AnswerState = Default | Selected | Correct | Incorrect | Hidden

  /** The persisted collection of questions, oldest first. */
  datatype QuestionBank = QuestionBank(questions: seq<QuizQuestion>)
}
